=== FILE: README.md ===
# cargo-download, modelled in Dafny

`cargo download CRATE[=VERSION]` fetches a crate's archive from crates.io.
It can write the archive out or unpack it into `./<name>-<version>`. This
project models the two parts of the tool that make decisions, and proves
properties of them:

- **The crate specification** (`src/args.rs`):
  - `Crate::from_str` splits the argument at its first `=` and trims both
    parts;
  - without a version, the name's characters are checked and the
    requirement is `any`;
  - `CrateVersion::from_str` reads `=X.Y.Z` as an exact version and any
    other text as a requirement;
  - the `exact_version` and `version_requirement` accessors;
  - the two `Display` impls;
  - the wrapping of version errors into `CrateError`;
  - the verbosity arithmetic of `Options` (`-v` count minus `-q` count,
    `verbose()`, `quiet()`).
- **Version selection and the program's flow** (`src/main.rs`):
  - `get_newest_version` queries `<root>/<name>/versions`;
  - it drops entries without a parsable string `num`;
  - it fails on a missing `versions` array and on an empty list;
  - it sorts the versions highest first and picks the first one the
    requirement accepts;
  - `main` uses an exact version without asking the registry;
  - the download URL is `<root>/<name>/<version>/download`;
  - the extraction directory is `./<name>-<version>`.

Files (one module each):

| file | module | contents |
|---|---|---|
| `wrappers.dfy` | `Wrappers` | `Option`, `Result` |
| `lex.dfy` | `Lex` | `Ordering` and lexicographic comparison of sequences |
| `text.dfy` | `Text` | `str::trim` (Unicode `White_Space`) and `splitn(2, sep)` |
| `semver.dfy` | `Semver` | `Version`, its precedence and `Display`; the `semver` library's parsers and range matching, passed in as a parameter |
| `args.dfy` | `Args` | `Crate`, `CrateVersion`, their errors, parsing, display, `Options` |
| `registry.dfy` | `Registry` | the JSON response, filtering, the descending sort, selection, `get_newest_version` |
| `pipeline.dfy` | `Pipeline` | the exact-version short cut, the download, the run's outcome, and a worked scenario |

Boundaries of the model:

- **The semver crate is a parameter.** `Version::parse`,
  `VersionReq::from_str` and range matching come in as a `Semver.Library`
  value. A lemma that needs the library to parse a version's display back
  to that version requires it: for one version as `Semver.ParsesBack`, or
  for every version the library parses as `Semver.ReparsesOwnDisplay`. A
  displayable version (`Semver.Displayable`) has pre-release identifiers
  that are numbers or non-empty strings of ASCII letters, digits and `-`;
  `Semver.ParsesDisplayable` says the library produces only such
  versions. A well-formed version (`Semver.WellFormed`) is displayable,
  has `u64` numeric fields and has no all-digit alphanumeric identifier,
  so its display reads back to it.
- **Reading a display back.** `Semver.ReadVersion` is a reference reading
  of the version text. It is not the crate's parser. It shows that the
  display alone determines a well-formed version, with no assumption
  about the library.
- **Requirements.** `VersionReq::any()` accepts every version.
  `VersionReq::exact(v)` accepts exactly `v`. A range requirement asks the
  library.
- **Alphanumerics.** `char::is_alphanumeric` is decided for ASCII. Beyond
  ASCII it is a parameter, `unicodeAlnum`.
- **The network.** It is an `Http` value: one function from URL to the
  decoded JSON body, and one from URL to the archive bytes.
- **Runs.** A run records the URLs it requested. So "no registry query for
  an exact version" is a statement about the result.

Behaviour worth knowing. The model follows the code in each case:

- **Empty name.** An empty name (the argument `""` or `"  "`) passes the
  name check, because `all` over no characters is true.
- **Name with a version.** With `=` present, the name is not checked at
  all: `foo bar=1.0` and `a/b==1.0.0` are accepted.
  `Pipeline.DownloadUrlInjective` therefore needs names without `/`.
- **Errors.** Lookup errors are fixed texts: "no valid versions found",
  "no matching version found", and "malformed response from <url>". They
  carry no requirement and no version count. Transport errors pass through
  unchanged.
- **Download status.** The download checks no HTTP status. Whatever body
  comes back is the archive.
- **Pre-releases.** `VersionReq::any()` (semver 0.9) accepts pre-releases.
  A bare name therefore selects the highest version listed, pre-releases
  included (`Registry.AnyPicksHighest`).
- **Extraction directory.** After unpacking, nothing checks that the
  directory exists.
- **Writing the archive.** Both stdout and the output file receive the
  archive through one `write` call whose returned count is ignored, not
  `write_all`, so a short write would go unnoticed (src/main.rs:115,
  src/main.rs:123). The file is opened with `write(true).create(true)` and
  no `truncate` (src/main.rs:117-118): an existing longer file keeps the
  tail of its old contents after the archive.

## Model

| member | source | states |
|---|---|---|
| Text.TrimStart | src/args.rs:84 | the result is a suffix of the input, every character dropped is whitespace, and the result does not start with whitespace |
| Text.TrimEnd | src/args.rs:84 | the result is a prefix of the input, every character dropped is whitespace, and the result does not end with whitespace |
| Text.Trim | src/args.rs:84 | the trimmed text has no whitespace at either end, and text already in that form is returned unchanged |
| Text.TrimIsSlice | src/args.rs:84 | trimming keeps one contiguous slice of the input, everything outside it is whitespace, and no character is introduced |
| Text.SplitFirst | src/args.rs:84 | `splitn(2, "=")` yields two parts exactly when `=` occurs; then the input is `before + "=" + after` and `before` holds no `=` (the split is at the first `=`) |
| Text.SplitFirstOfJoin | src/args.rs:84 | joining a `=`-free `before`, `=` and any `after` and splitting again gives back exactly `before` and `after` |
| Lex.CompareEqual | src/main.rs:178 | lexicographic comparison under a total order says `Equal` exactly for identical sequences |
| Lex.CompareFlip | src/main.rs:178 | swapping the operands of the lexicographic comparison flips its result |
| Lex.CompareTrans | src/main.rs:178 | the lexicographic order is transitive |
| Lex.CompareTotalOrder | src/main.rs:178 | the lexicographic order on sequences is a total order whenever the element order is |
| Semver.Cmp | src/main.rs:178 | precedence compares major, then minor, then patch numerically, and a pre-release comes before the release with the same numbers |
| Semver.Matches | src/main.rs:179 | `any` accepts every version, `exact(v)` accepts `v` and nothing else, and a range requirement accepts what the library's matching accepts |
| Semver.CmpEqual | src/main.rs:178 | version precedence says `Equal` exactly for the same version (major, minor, patch, pre-release) |
| Semver.CmpFlip | src/main.rs:178 | `b.cmp(a)` is the reverse of `a.cmp(b)`, so sorting by it sorts highest first |
| Semver.CmpTrans | src/main.rs:178 | version precedence is transitive |
| Semver.IdentCmp | src/main.rs:178 | a numeric identifier sorts before an alphanumeric one, and two numeric identifiers compare by value |
| Lex.ComparePrefix | src/main.rs:178 | a proper prefix sorts before the longer sequence it starts |
| Semver.ShorterPreFirst | src/main.rs:178 | with equal numbers, a pre-release whose identifiers are a proper prefix of another's has lower precedence |
| Semver.CmpTotal | src/main.rs:178 | version precedence (numeric fields, then release after pre-release, then identifiers lexicographically with numeric before alphanumeric) is a total order, as `sort_by` needs |
| Semver.AtLeastTrans | src/main.rs:178 | `>=` on versions is transitive |
| Semver.NotAtLeast | src/main.rs:178 | any two versions are comparable: if `a >= b` fails then `b > a` |
| Semver.NatToString | src/main.rs:186 | a number is displayed as a non-empty run of decimal digits with no leading zero |
| Semver.DecimalRoundTrip | src/main.rs:186 | reading a displayed number's digits back gives the number |
| Semver.ShowVersionChars | src/main.rs:186 | a displayable version displays as digits, letters, `-` and `.` only (no `/`, `=` or whitespace), starting with a digit and ending with an identifier character |
| Semver.ShowVersion | src/main.rs:186 | a version's text starts with a digit and holds a `-` exactly when the version has a pre-release |
| Semver.ShowVersionReadBack | src/main.rs:186 | the text of every well-formed version reads back to that version: major, minor, patch and each pre-release identifier |
| Semver.ShowVersionInjective | src/main.rs:186 | different well-formed versions display differently |
| Semver.ShowReq | src/args.rs:154 | `any` displays as `*`, `exact(v)` as `= ` followed by the version, and a range as its text |
| Args.ParseCrateVersion | src/args.rs:140-148 | text starting with `=` gives `Exact(v)` exactly when the rest parses as `v`, and `Syntax(e)` exactly when it fails with `e`; other text gives `Other(q)` or `Semantics(e)` exactly as the requirement parser does |
| Args.ParseCrate | src/args.rs:83-101 | without `=`, parsing succeeds exactly when the trimmed text is a valid name; success gives that name with the `any` requirement, failure gives `Name` carrying the trimmed text; with `=` every failure is a `Version` error |
| Args.ParseCrateWithVersion | src/args.rs:97-99 | with `=`, the name is the trimmed text before the first `=`, whatever its characters; the version comes from the trimmed rest, and its error is wrapped as `CrateError::Version` |
| Args.ExactVersion | src/args.rs:109-114 | `exact_version()` is `Some(v)` exactly when the crate's version is `Exact(v)` |
| Args.VersionRequirement | src/args.rs:116-121 | the requirement is the stored one for `Other`, and `exact(v)` for `Exact(v)` |
| Args.ExactRequirementMatchesOnly | src/args.rs:116-121 | the requirement of a crate with exact version `v` accepts `v` and no other version |
| Args.NameOnlyMatchesAll | src/args.rs:86-93 | a name parsed without `=` has no exact version, and its requirement accepts every version |
| Args.ShowCrateVersion | src/args.rs:150-156 | an exact version displays as `=` followed by the version, so it reads as exact again; any other version displays as its requirement |
| Args.ShowCrate | src/args.rs:123-126 | for a name without `=`, splitting the display at its first `=` gives back the name and the version's display |
| Args.ExactTextParses | src/args.rs:150-156 | the displayed exact version `=X.Y.Z` of a displayable version has no surrounding whitespace, and parses back to `Exact(v)` whenever the library parses `v`'s display back to `v` |
| Args.ShowExactCrate | src/args.rs:123-126 | a crate with an exact version displays as `NAME==X.Y.Z` |
| Args.DisplayParseRoundTrip | src/args.rs:83-101 | parsing the display of a crate with a trimmed, `=`-free name and a displayable exact version that the library parses back from its display gives back the same crate |
| Args.ParsedExactRoundTrip | src/args.rs:83-101 | every crate parsed with an exact version parses back to itself from its display, for a library that re-parses the display of each version it produces and produces only displayable identifiers |
| Args.OptionsFrom | src/args.rs:61-70 | options exist exactly when the crate argument parses; then verbosity plus the `-q` count is the `-v` count and the crate and extract flag are as given; otherwise the crate error is the options error |
| Args.VerbosityFlags | src/args.rs:53-55 | `verbose()` holds exactly when `-v` was counted more often than `-q`, `quiet()` exactly when `-q` was, and never both |
| Registry.VersionsUrl | src/main.rs:159 | the versions URL is the API root, `/`, the name, then `/versions`, so the name is recoverable from it |
| Registry.VersionsUrlInjective | src/main.rs:159 | different crate names query different versions URLs |
| Registry.VersionsArray | src/main.rs:165 | the array is found exactly when the response is an object whose `versions` member is an array, and it is that array |
| Registry.MessagesDistinct | src/main.rs:171-181 | the failures the program words itself ("malformed response from <url>", "no valid versions found", "no matching version found") have distinct texts, and the malformed-response text determines the URL |
| Registry.EntryVersion | src/main.rs:166-169 | an entry yields a version exactly when it is an object whose `num` is a string that parses, and the version is what the parser returns |
| Registry.ValidVersions | src/main.rs:165-171 | a version is kept exactly when some entry yields it; dropping never lengthens the list |
| Registry.Insert | src/main.rs:178 | inserting into a descending list keeps it descending and adds exactly the one version |
| Registry.SortDescending | src/main.rs:178 | the sorted list is descending and a permutation of the input |
| Registry.FirstMatchIndex | src/main.rs:179 | `find` stops at the first accepted position: nothing before it is accepted, and the version there is |
| Registry.FirstMatchIsHighest | src/main.rs:178-179 | in a descending list the first accepted version is at least every accepted one |
| Registry.NewestMatchUnique | src/main.rs:177-181 | at most one version of a list is the newest accepted one |
| Registry.NewestMatching | src/main.rs:177-181 | sort then find returns nothing exactly when no version is accepted; otherwise a listed, accepted version that no accepted version is newer than |
| Registry.GetNewestVersion | src/main.rs:158-182 | transport errors pass through; a response without a `versions` array is malformed, naming the URL; an empty filtered list is "no valid versions"; success is the newest accepted version; "no matching version" exactly when versions exist but none is accepted |
| Registry.LookupFindsNewest | src/main.rs:158-182 | whenever the registry answers with a `versions` array, the lookup returns its newest accepted version |
| Registry.AnyPicksHighest | src/main.rs:177-181 | with the `any` requirement the highest listed version is selected, pre-releases included |
| Pipeline.DownloadUrl | src/main.rs:186 | the download URL lies under the same `<root>/<name>/` path as the versions URL and ends in `/download` |
| Pipeline.ExtractDir | src/main.rs:88 | the directory starts with `./`; for a name without `/` and a displayable version it is a single path component there |
| Pipeline.DownloadUrlInjective | src/main.rs:186 | a download URL determines the crate name (when it has no `/`) and the well-formed version |
| Pipeline.ExtractDirDeterminesVersion | src/main.rs:88 | for one crate, the extraction directory determines the version |
| Pipeline.ResolveVersion | src/main.rs:68-77 | an exact version is used as is with no request; otherwise one request to the versions URL, and the result of the lookup |
| Pipeline.ShortCircuitAgrees | src/main.rs:68-77 | when the registry lists the exact version, the skipped lookup would have chosen that same version |
| Pipeline.Deliver | src/main.rs:78-127 | once the version is settled, the archive is what `download_crate` (src/main.rs:185-201) fetches from the download URL of that name and version: a failed request ends the run with its message; a successful one delivers exactly the downloaded bytes, unpacked into `./<name>-<version>` when extraction is asked for and written out otherwise |
| Pipeline.Execute | src/main.rs:68-127 | an exact version makes exactly one request, the download; otherwise the versions URL is requested first, and a lookup failure ends the run right after it with the lookup's own error; once a version is settled, the download URL is requested after the settling requests whether or not it then fails, a delivered version is the settled one, the run ends in a download failure exactly when the download request fails, with its message, and otherwise delivers that request's bytes for that version, extracted into `./<name>-<version>` exactly when asked for |
| Pipeline.Program | src/main.rs:59-63 | a command line whose crate does not parse ends with a usage error before any request; one that parses runs `Execute` on the parsed options |
| Pipeline.InvalidNameMakesNoRequest | src/args.rs:86-95 | a bare name with a character other than alphanumerics, `-` and `_` is rejected with `Name` carrying the trimmed text, and nothing is requested |
| Pipeline.FooBarRejected | src/args.rs:86-95 | `foo bar` is rejected as a name and nothing is requested |
| Pipeline.LookupThenExtract | src/main.rs:73-88 | a lookup settling on `v` and a successful download with extraction on request the versions URL, then the download URL, and unpack into `./<name>-<v>` |
| Pipeline.DemoName | src/args.rs:86-93 | `demo` parses as the name `demo` with the `any` requirement |
| Pipeline.DemoDir | src/main.rs:88 | version 1.1.0 of `demo` unpacks into `./demo-1.1.0` |
| Pipeline.DemoValidVersions | src/main.rs:165-171 | the entries `0.9.0`, `1.0.0` and `1.1.0` yield those three versions in order |
| Pipeline.DemoNewest | src/main.rs:177-181 | 1.1.0 is the newest of the three under `any` |
| Pipeline.DemoLookup | src/main.rs:158-182 | looking up `demo` against that listing gives 1.1.0 |
| Pipeline.DemoScenario | src/main.rs:59-88 | `cargo download -x demo` requests the versions URL and then the 1.1.0 download URL, and unpacks into `./demo-1.1.0` |

## Left out

- **Argument parser.** The clap configuration (`create_parser`,
  `parse_from_argv`, help and version texts) is not modelled. Options are
  built from flag counts that are already known. The parser's rejection
  of `-v` combined with `-q` is not modelled.
- **The `Output` enum and `opts.output`.** `main` reads them, but they are
  not defined in `src/args.rs`. Written archives go to an unnamed output.
- **HTTP.** Requests and JSON decoding (reqwest, serde_json) are the `Http`
  parameter. So are the content-length pre-allocation and the streaming
  read in `download_crate`.
- **File system.** Gzip and tar decoding, unpacking, `fs::rename`, and
  file and stdout writes are left out. Extraction is reported as the
  `Extracted` outcome with the directory name. Failures while unpacking
  (`GzDecoder::new(..).unwrap()`, `archive.unpack` errors) are not
  modelled.
- **Plumbing.** Logging, `log_signature`, `print_args_error`, the exit codes,
  and the `Display` text of `CrateError` are left out.
- **The semver crate's internals.** The parsers and range matching are the
  `Library` parameter. `Display for VersionReq` is modelled only for
  `any` (`*`) and `exact` (`= ` and the version, as semver 0.9 writes its
  `=` operator). A range requirement is shown by its stored text.
- **Build metadata.** It is not part of `Version`, because semver 0.9
  ignores it in equality and ordering. Displayed versions carry none.
- Pipeline.DownloadUrl and Pipeline.ExtractDir: a registry version with
  build metadata, such as `1.0.0+b`, is displayed by the program with its
  `+b`, so the real URL is `.../1.0.0+b/download` and the real directory
  `./foo-1.0.0+b`. The model's text omits the build metadata, so for such
  versions it differs from the program's.
- Semver.WellFormed: numbers beyond `u64` are outside the model. The
  `Version` fields are unbounded naturals and `WellFormed` keeps them below
  2^64. The crate's parser rejects larger numbers; the model leaves that
  to the `Library` parameter.
- **JSON numbers.** They are an opaque literal, since the program never
  reads one.
- Args.OptionsFrom: the counts are unbounded naturals and the verbosity
  an unbounded integer. The `u64` occurrence counts and the `as isize`
  casts, which wrap for counts beyond `isize::MAX`, are not modelled,
  because no command line is that long.
- Semver.ParsesBack, Semver.ReparsesOwnDisplay and
  Semver.ParsesDisplayable: these are assumptions about the library,
  stated as predicates that the parse round-trip lemmas require. They are
  not proved, because the parser is not part of this model.
- Semver.WellFormedIdent: it excludes all-digit alphanumeric identifiers,
  such as the `01` that semver 0.9 may produce from `1.0.0-01`, because
  the reference reading reads all-digit text back as a number.
  `Semver.ShowVersionReadBack`, `Semver.ShowVersionInjective` and the
  `Pipeline` lemmas that require `WellFormed` say nothing about such
  versions.

=== FILE: args.dfy ===
/**
 * The command-line options (`src/args.rs`): the crate specification
 * `NAME[=VERSION]`, its parser and display, and the verbosity arithmetic.
 * The flag grammar itself belongs to the argument-parsing library; options
 * are built here from already-counted flag occurrences.
 */
module Args {
  import opened Wrappers
  import Text
  import Semver

  // ----- crate specification -----

  /** `CrateVersion`: an exact version (written `=1.0.0`) or any other requirement. */
  datatype CrateVersion = Exact(version: Semver.Version) | Other(req: Semver.VersionReq)

  /** `Crate`: the crate to download. */
  datatype Crate = Crate(name: string, version: CrateVersion)

  /** `CrateVersionError`: the version text did not parse as a version, or as a requirement. */
  datatype CrateVersionError = Syntax(versionError: Semver.SemVerError) | Semantics(reqError: Semver.ReqParseError)

  /** `CrateError`: a bad name, or a version error wrapped by `From<CrateVersionError>`. */
  datatype CrateError = Name(name: string) | Version(cause: CrateVersionError)

  /**
   * Rust's `char::is_alphanumeric`. It is decided here for ASCII; beyond
   * ASCII it consults the Unicode Alphabetic and Numeric tables, given as
   * `unicodeAlnum`.
   */
  predicate IsAlphanumeric(c: char, unicodeAlnum: char -> bool) {
    if c < '\U{80}' then Semver.IsAsciiAlphanumeric(c) else unicodeAlnum(c)
  }

  /** A character allowed in a crate name given without a version. */
  predicate IsNameChar(c: char, unicodeAlnum: char -> bool) {
    IsAlphanumeric(c, unicodeAlnum) || c == '-' || c == '_'
  }

  predicate ValidName(name: string, unicodeAlnum: char -> bool) {
    forall i :: 0 <= i < |name| ==> IsNameChar(name[i], unicodeAlnum)
  }

  predicate StartsWithEquals(s: string) {
    |s| > 0 && s[0] == '='
  }

  /**
   * `CrateVersion::from_str`: text starting with `=` is an exact version
   * (the rest is parsed as a `Version`), anything else a requirement.
   */
  function ParseCrateVersion(lib: Semver.Library, s: string): (r: Result<CrateVersion, CrateVersionError>)
    ensures StartsWithEquals(s) ==>
      && (forall v :: r == Success(Exact(v)) <==> lib.parseVersion(s[1..]) == Success(v))
      && (forall e :: r == Failure(Syntax(e)) <==> lib.parseVersion(s[1..]) == Failure(e))
    ensures !StartsWithEquals(s) ==>
      && (forall q :: r == Success(Other(q)) <==> lib.parseReq(s) == Success(q))
      && (forall e :: r == Failure(Semantics(e)) <==> lib.parseReq(s) == Failure(e))
  {
    if StartsWithEquals(s) then
      match lib.parseVersion(s[1..])
      case Success(v) => Success(Exact(v))
      case Failure(e) => Failure(Syntax(e))
    else
      match lib.parseReq(s)
      case Success(q) => Success(Other(q))
      case Failure(e) => Failure(Semantics(e))
  }

  /**
   * `Crate::from_str`: split at the first `=` and trim both parts. Without
   * `=`, the whole trimmed text is the name, which must be valid, and the
   * requirement is `any`. With `=`, the name is not checked and the text
   * after it is the version.
   */
  function ParseCrate(lib: Semver.Library, unicodeAlnum: char -> bool, s: string): (r: Result<Crate, CrateError>)
    ensures '=' !in s ==> (r.Success? <==> ValidName(Text.Trim(s), unicodeAlnum))
    ensures '=' !in s && r.Success? ==> r.value == Crate(Text.Trim(s), Other(Semver.AnyReq))
    ensures '=' !in s && r.Failure? ==> r.error == Name(Text.Trim(s))
    ensures '=' in s && r.Failure? ==> r.error.Version?
  {
    match Text.SplitFirst(s, '=')
    case None =>
      var name := Text.Trim(s);
      if ValidName(name, unicodeAlnum) then Success(Crate(name, Other(Semver.AnyReq)))
      else Failure(Name(name))
    case Some((before, after)) =>
      match ParseCrateVersion(lib, Text.Trim(after))
      case Success(version) => Success(Crate(Text.Trim(before), version))
      case Failure(e) => Failure(Version(e))
  }

  /**
   * With a `=`, the name is the trimmed text before the first `=` (whatever
   * characters it holds) and the version comes from the trimmed rest.
   */
  lemma ParseCrateWithVersion(lib: Semver.Library, unicodeAlnum: char -> bool, s: string, before: string, after: string)
    requires s == before + "=" + after && '=' !in before
    ensures var r := ParseCrate(lib, unicodeAlnum, s);
      var cv := ParseCrateVersion(lib, Text.Trim(after));
      && (cv.Success? ==> r == Success(Crate(Text.Trim(before), cv.value)))
      && (cv.Failure? ==> r == Failure(Version(cv.error)))
  {
    Text.SplitFirstOfJoin(before, '=', after);
  }

  /** `Crate::exact_version`: the version when it is exact. */
  function ExactVersion(c: Crate): (r: Option<Semver.Version>)
    ensures forall v :: r == Some(v) <==> c.version == Exact(v)
  {
    match c.version
    case Exact(v) => Some(v)
    case Other(_) => None
  }

  /** `Crate::version_requirement`: the stored requirement, or `exact(v)` for an exact version. */
  function VersionRequirement(c: Crate): (r: Semver.VersionReq)
    ensures c.version.Other? ==> r == c.version.req
    ensures c.version.Exact? ==> r == Semver.ExactReq(c.version.version)
  {
    match c.version
    case Exact(v) => Semver.ExactReq(v)
    case Other(q) => q
  }

  /** The requirement of a crate with an exact version accepts that version and no other. */
  lemma ExactRequirementMatchesOnly(lib: Semver.Library, c: Crate, v: Semver.Version, w: Semver.Version)
    requires ExactVersion(c) == Some(v)
    ensures Semver.Matches(lib, VersionRequirement(c), w) <==> w == v
  {
  }

  /** A name given without a version accepts every version. */
  lemma NameOnlyMatchesAll(lib: Semver.Library, unicodeAlnum: char -> bool, s: string, w: Semver.Version)
    requires '=' !in s
    requires ParseCrate(lib, unicodeAlnum, s).Success?
    ensures ExactVersion(ParseCrate(lib, unicodeAlnum, s).value) == None
    ensures Semver.Matches(lib, VersionRequirement(ParseCrate(lib, unicodeAlnum, s).value), w)
  {
  }

  /**
   * `Display for CrateVersion`: an exact version is `=` and the version with
   * no space, so that parsing reads it as exact again; any other requirement
   * displays as the requirement itself.
   */
  function ShowCrateVersion(cv: CrateVersion): (r: string)
    ensures cv.Exact? ==> StartsWithEquals(r) && r[1..] == Semver.ShowVersion(cv.version)
    ensures cv.Other? ==> r == Semver.ShowReq(cv.req)
  {
    match cv
    case Exact(v) => "=" + Semver.ShowVersion(v)
    case Other(q) => Semver.ShowReq(q)
  }

  /** `Display for Crate`: `NAME=VERSION`, so an exact version reads `NAME==X.Y.Z`. */
  function ShowCrate(c: Crate): (r: string)
    ensures '=' !in c.name ==> Text.SplitFirst(r, '=') == Some((c.name, ShowCrateVersion(c.version)))
  {
    var r := c.name + "=" + ShowCrateVersion(c.version);
    if '=' in c.name then r
    else
      Text.SplitFirstOfJoin(c.name, '=', ShowCrateVersion(c.version));
      r
  }

  /** The displayed exact version `=X.Y.Z` survives trimming and parses back to `Exact(v)`. */
  lemma ExactTextParses(lib: Semver.Library, v: Semver.Version)
    requires Semver.ParsesBack(lib, v) && Semver.Displayable(v)
    ensures Text.Trim(ShowCrateVersion(Exact(v))) == ShowCrateVersion(Exact(v))
    ensures ParseCrateVersion(lib, ShowCrateVersion(Exact(v))) == Success(Exact(v))
  {
    var sv := Semver.ShowVersion(v);
    var rest := "=" + sv;
    Semver.ShowVersionChars(v);
    IdentCharNotWhitespace(sv[|sv| - 1]);
    assert rest[|rest| - 1] == sv[|sv| - 1];
    assert Text.Trimmed(rest);
    assert rest[1..] == sv;
  }

  /** No character of a version identifier is whitespace. */
  lemma IdentCharNotWhitespace(c: char)
    requires Semver.IsIdentChar(c)
    ensures !Text.IsWhitespace(c)
  {
  }

  /** A crate with an exact version displays as `NAME==X.Y.Z`. */
  lemma ShowExactCrate(c: Crate)
    requires c.version.Exact?
    ensures ShowCrate(c) == c.name + "==" + Semver.ShowVersion(c.version.version)
  {
    var sv := Semver.ShowVersion(c.version.version);
    assert "=" + ("=" + sv) == "==" + sv;
    assert ShowCrate(c) == c.name + ("=" + ("=" + sv));
  }

  /**
   * Display then parse gives back a crate with an exact version, provided
   * its name has no `=` and no surrounding whitespace, its version is
   * displayable and the library parses the version's display back to it.
   */
  lemma DisplayParseRoundTrip(lib: Semver.Library, unicodeAlnum: char -> bool, c: Crate)
    requires c.version.Exact?
    requires Semver.ParsesBack(lib, c.version.version) && Semver.Displayable(c.version.version)
    requires '=' !in c.name && Text.Trimmed(c.name)
    ensures ParseCrate(lib, unicodeAlnum, ShowCrate(c)) == Success(c)
  {
    var rest := ShowCrateVersion(c.version);
    ExactTextParses(lib, c.version.version);
    ParseCrateWithVersion(lib, unicodeAlnum, ShowCrate(c), c.name, rest);
  }

  /**
   * Every crate parsed with an exact version displays as `NAME==X.Y.Z` and
   * parses back to itself, when the library parses the display of each
   * version it produces back to that version and produces only displayable
   * identifiers.
   */
  lemma ParsedExactRoundTrip(lib: Semver.Library, unicodeAlnum: char -> bool, s: string)
    requires Semver.ReparsesOwnDisplay(lib) && Semver.ParsesDisplayable(lib)
    requires ParseCrate(lib, unicodeAlnum, s).Success?
    requires ParseCrate(lib, unicodeAlnum, s).value.version.Exact?
    ensures var c := ParseCrate(lib, unicodeAlnum, s).value;
      ParseCrate(lib, unicodeAlnum, ShowCrate(c)) == Success(c)
  {
    var c := ParseCrate(lib, unicodeAlnum, s).value;
    var split := Text.SplitFirst(s, '=');
    var before := split.value.0;
    var after := split.value.1;
    ParseCrateWithVersion(lib, unicodeAlnum, s, before, after);
    Text.TrimIsSlice(before);
    var text := Text.Trim(after);
    assert lib.parseVersion(text[1..]).Success?;
    DisplayParseRoundTrip(lib, unicodeAlnum, c);
  }

  // ----- options -----

  /** `ArgsError::Crate`: the CRATE argument did not parse. */
  datatype ArgsError = InvalidCrate(error: CrateError)

  /** `Options`: verbosity (`-v` count minus `-q` count), the crate, and whether to extract. */
  datatype Options = Options(verbosity: int, crate: Crate, extract: bool) {

    /** `Options::verbose`. */
    predicate Verbose() {
      verbosity > 0
    }

    /** `Options::quiet`. */
    predicate Quiet() {
      verbosity < 0
    }
  }

  /**
   * `Options::try_from`: verbosity from the flag counts, the crate parsed
   * from its argument, the extract flag as given; a crate error becomes the
   * options error.
   */
  function OptionsFrom(lib: Semver.Library, unicodeAlnum: char -> bool, verboseCount: nat, quietCount: nat,
                       crateArg: string, extract: bool): (r: Result<Options, ArgsError>)
    ensures r.Success? <==> ParseCrate(lib, unicodeAlnum, crateArg).Success?
    ensures r.Success? ==>
      && r.value.crate == ParseCrate(lib, unicodeAlnum, crateArg).value
      && r.value.extract == extract
      && r.value.verbosity + quietCount == verboseCount
    ensures r.Failure? ==> r == Failure(InvalidCrate(ParseCrate(lib, unicodeAlnum, crateArg).error))
  {
    var verbosity := verboseCount - quietCount;
    match ParseCrate(lib, unicodeAlnum, crateArg)
    case Success(c) => Success(Options(verbosity, c, extract))
    case Failure(e) => Failure(InvalidCrate(e))
  }

  /**
   * `verbose()` holds exactly when `-v` was given more often than `-q`,
   * `quiet()` exactly when `-q` was, and never both.
   */
  lemma VerbosityFlags(lib: Semver.Library, unicodeAlnum: char -> bool, verboseCount: nat, quietCount: nat,
                       crateArg: string, extract: bool)
    requires OptionsFrom(lib, unicodeAlnum, verboseCount, quietCount, crateArg, extract).Success?
    ensures var o := OptionsFrom(lib, unicodeAlnum, verboseCount, quietCount, crateArg, extract).value;
      && (o.Verbose() <==> verboseCount > quietCount)
      && (o.Quiet() <==> quietCount > verboseCount)
      && !(o.Verbose() && o.Quiet())
  {
  }
}

=== FILE: lex.dfy ===
/**
 * Three-way comparison and the lexicographic order on sequences, as Rust's
 * `Ord` defines it for slices, `Vec` and `String`: the first differing
 * element decides, and a proper prefix sorts first.
 */
module Lex {

  /** `std::cmp::Ordering`. */
  datatype Ordering = Less | Equal | Greater {

    /** The ordering seen from the other side of the comparison. */
    function Flip(): Ordering {
      match this
      case Less => Greater
      case Equal => Equal
      case Greater => Less
    }
  }

  /** `cmp` is a total order: `Equal` exactly on equal values, antisymmetric, transitive. */
  ghost predicate TotalOrder<T(!new)>(cmp: (T, T) -> Ordering) {
    && (forall a, b :: cmp(a, b) == Equal <==> a == b)
    && (forall a, b :: cmp(b, a) == cmp(a, b).Flip())
    && (forall a, b, c :: cmp(a, b) == Less && cmp(b, c) == Less ==> cmp(a, c) == Less)
  }

  /** Lexicographic comparison of `a` and `b` under the element order `cmp`. */
  function Compare<T>(a: seq<T>, b: seq<T>, cmp: (T, T) -> Ordering): Ordering
  {
    if |a| == 0 then (if |b| == 0 then Equal else Less)
    else if |b| == 0 then Greater
    else match cmp(a[0], b[0])
      case Equal => Compare(a[1..], b[1..], cmp)
      case Less => Less
      case Greater => Greater
  }

  /** A proper prefix sorts before the sequence it starts, when every element equals itself. */
  lemma {:induction false} ComparePrefix<T>(a: seq<T>, b: seq<T>, cmp: (T, T) -> Ordering)
    requires forall x :: cmp(x, x) == Equal
    requires |a| < |b| && a == b[..|a|]
    ensures Compare(a, b, cmp) == Less
  {
    if |a| > 0 {
      assert cmp(a[0], b[0]) == Equal;
      ComparePrefix(a[1..], b[1..], cmp);
    }
  }

  /** Two sequences compare `Equal` exactly when they are the same sequence. */
  lemma {:induction false} CompareEqual<T(!new)>(a: seq<T>, b: seq<T>, cmp: (T, T) -> Ordering)
    requires TotalOrder(cmp)
    ensures Compare(a, b, cmp) == Equal <==> a == b
  {
    if |a| > 0 && |b| > 0 {
      CompareEqual(a[1..], b[1..], cmp);
      assert a == [a[0]] + a[1..];
      assert b == [b[0]] + b[1..];
    }
  }

  /** Swapping the operands flips the result. */
  lemma {:induction false} CompareFlip<T(!new)>(a: seq<T>, b: seq<T>, cmp: (T, T) -> Ordering)
    requires TotalOrder(cmp)
    ensures Compare(b, a, cmp) == Compare(a, b, cmp).Flip()
  {
    if |a| > 0 && |b| > 0 {
      CompareFlip(a[1..], b[1..], cmp);
    }
  }

  /** The lexicographic order is transitive. */
  lemma {:induction false} CompareTrans<T(!new)>(a: seq<T>, b: seq<T>, c: seq<T>, cmp: (T, T) -> Ordering)
    requires TotalOrder(cmp)
    requires Compare(a, b, cmp) == Less && Compare(b, c, cmp) == Less
    ensures Compare(a, c, cmp) == Less
  {
    if |a| > 0 {
      assert |b| > 0 && |c| > 0;
      if cmp(a[0], b[0]) == Equal && cmp(b[0], c[0]) == Equal {
        CompareTrans(a[1..], b[1..], c[1..], cmp);
      }
    }
  }

  /** The lexicographic order inherits totality from the element order. */
  lemma CompareTotalOrder<T(!new)>(cmp: (T, T) -> Ordering)
    requires TotalOrder(cmp)
    ensures TotalOrder((a: seq<T>, b: seq<T>) => Compare(a, b, cmp))
  {
    forall a: seq<T>, b: seq<T> ensures Compare(a, b, cmp) == Equal <==> a == b {
      CompareEqual(a, b, cmp);
    }
    forall a: seq<T>, b: seq<T> ensures Compare(b, a, cmp) == Compare(a, b, cmp).Flip() {
      CompareFlip(a, b, cmp);
    }
    forall a: seq<T>, b: seq<T>, c: seq<T> | Compare(a, b, cmp) == Less && Compare(b, c, cmp) == Less
      ensures Compare(a, c, cmp) == Less
    {
      CompareTrans(a, b, c, cmp);
    }
  }
}

=== FILE: pipeline.dfy ===
/**
 * The program's flow (`main` and `download_crate` in `src/main.rs`): parse
 * the options, settle the version (straight from the arguments when it is
 * exact, from the registry otherwise), download the archive and either
 * hand it to the output or extract it into `./<name>-<version>`.
 *
 * The network is an `Http` value: one function per kind of request, from
 * URL to the decoded body or an error message. A run records the URLs it
 * requested, in order, so that which requests happen is part of the result.
 */
module Pipeline {
  import opened Wrappers
  import Text
  import Semver
  import Args
  import Registry

  /** The registry as the program sees it. */
  datatype Http = Http(
    getJson: string -> Result<Registry.Json, string>,
    getBytes: string -> Result<seq<bv8>, string>)

  /** The download endpoint: `<root>/<name>/<version>/download`. */
  function DownloadUrl(name: string, v: Semver.Version): (r: string)
    ensures var k := |Registry.CratesApiRoot| + |name| + 2;
      |r| > k && r[..k] == Registry.VersionsUrl(name)[..k]
    ensures r[|r| - 9..] == "/download"
  {
    Registry.CratesApiRoot + "/" + name + "/" + Semver.ShowVersion(v) + "/download"
  }

  /** The directory a crate archive unpacks to: `./<name>-<version>`. */
  function ExtractDir(name: string, v: Semver.Version): (r: string)
    ensures |r| > 2 && r[..2] == "./"
    ensures '/' !in name && Semver.Displayable(v) ==> '/' !in r[2..]
  {
    DirShape(name, v);
    "./" + name + "-" + Semver.ShowVersion(v)
  }

  /** `./<name>-<version>` starts with `./` and, for a slash-free name and a displayable version, has no further `/`. */
  lemma DirShape(name: string, v: Semver.Version)
    ensures var r := "./" + name + "-" + Semver.ShowVersion(v);
      && |r| > 2 && r[..2] == "./"
      && ('/' !in name && Semver.Displayable(v) ==> '/' !in r[2..])
  {
    var sv := Semver.ShowVersion(v);
    var r := "./" + name + "-" + sv;
    assert r[2..] == name + "-" + sv;
    if '/' !in name && Semver.Displayable(v) {
      NoSlashInVersion(v);
    }
  }

  /** A displayable version's text has no `/`, so it cannot add a path component. */
  lemma NoSlashInVersion(v: Semver.Version)
    requires Semver.Displayable(v)
    ensures '/' !in Semver.ShowVersion(v)
  {
    Semver.ShowVersionChars(v);
  }

  /** Around a fixed prefix and suffix, `name/rest` with a slash-free name splits in one way. */
  lemma SlashSeparatedUnique(p: string, n1: string, s1: string, n2: string, s2: string, q: string)
    requires '/' !in n1 && '/' !in n2
    requires p + n1 + "/" + s1 + q == p + n2 + "/" + s2 + q
    ensures n1 == n2 && s1 == s2
  {
    assert p + n1 + "/" + s1 + q == p + (n1 + "/" + s1) + q;
    assert p + n2 + "/" + s2 + q == p + (n2 + "/" + s2) + q;
    Text.SameAffixes(p, n1 + "/" + s1, n2 + "/" + s2, q);
    Text.SeparatorUnique(n1, s1, n2, s2, '/');
  }

  /**
   * A download URL names one crate and one version: different names
   * without `/`, or different well-formed versions, give different URLs.
   */
  lemma DownloadUrlInjective(n1: string, v1: Semver.Version, n2: string, v2: Semver.Version)
    requires Semver.WellFormed(v1) && Semver.WellFormed(v2)
    requires '/' !in n1 && '/' !in n2
    requires DownloadUrl(n1, v1) == DownloadUrl(n2, v2)
    ensures n1 == n2 && v1 == v2
  {
    var s1 := Semver.ShowVersion(v1);
    var s2 := Semver.ShowVersion(v2);
    SlashSeparatedUnique(Registry.CratesApiRoot + "/", n1, s1, n2, s2, "/download");
    Semver.ShowVersionInjective(v1, v2);
  }

  /** For one crate, the extraction directory names the version. */
  lemma ExtractDirDeterminesVersion(name: string, v1: Semver.Version, v2: Semver.Version)
    requires Semver.WellFormed(v1) && Semver.WellFormed(v2)
    requires ExtractDir(name, v1) == ExtractDir(name, v2)
    ensures v1 == v2
  {
    var p := "./" + name + "-";
    assert ExtractDir(name, v1) == p + Semver.ShowVersion(v1) + "";
    assert ExtractDir(name, v2) == p + Semver.ShowVersion(v2) + "";
    Text.SameAffixes(p, Semver.ShowVersion(v1), Semver.ShowVersion(v2), "");
    Semver.ShowVersionInjective(v1, v2);
  }

  /** The version a run settles on, and the requests made to settle it. */
  datatype Resolution = Resolution(requests: seq<string>, version: Result<Semver.Version, Registry.LookupError>)

  /**
   * The version step of `main`: an exact version from the arguments is used
   * as is, without asking the registry; otherwise the registry's versions
   * endpoint is queried once.
   */
  function ResolveVersion(lib: Semver.Library, http: Http, c: Args.Crate): (r: Resolution)
    ensures forall v :: Args.ExactVersion(c) == Some(v) ==> r == Resolution([], Success(v))
    ensures Args.ExactVersion(c).None? ==>
      && r.requests == [Registry.VersionsUrl(c.name)]
      && r.version == Registry.GetNewestVersion(lib, c, http.getJson)
  {
    match Args.ExactVersion(c)
    case Some(v) => Resolution([], Success(v))
    case None => Resolution([Registry.VersionsUrl(c.name)], Registry.GetNewestVersion(lib, c, http.getJson))
  }

  /**
   * Skipping the registry for an exact version loses nothing: whenever the
   * registry lists that version, the lookup would have chosen it too.
   */
  lemma ShortCircuitAgrees(lib: Semver.Library, http: Http, c: Args.Crate, v: Semver.Version)
    requires Args.ExactVersion(c) == Some(v)
    requires http.getJson(Registry.VersionsUrl(c.name)).Success?
    requires Registry.VersionsArray(http.getJson(Registry.VersionsUrl(c.name)).value).Some?
    requires v in Registry.ValidVersions(lib, Registry.VersionsArray(http.getJson(Registry.VersionsUrl(c.name)).value).value)
    ensures Registry.GetNewestVersion(lib, c, http.getJson) == Success(v)
    ensures ResolveVersion(lib, http, c).version == Registry.GetNewestVersion(lib, c, http.getJson)
  {
    var vs := Registry.ValidVersions(lib, Registry.VersionsArray(http.getJson(Registry.VersionsUrl(c.name)).value).value);
    var req := Args.VersionRequirement(c);
    assert Semver.Matches(lib, req, v);
    var r := Registry.GetNewestVersion(lib, c, http.getJson);
    assert r.Success?;
    Args.ExactRequirementMatchesOnly(lib, c, v, r.value);
  }

  /** `v` is the version a run settles on: the exact one asked for, or the registry's newest match. */
  predicate Settles(lib: Semver.Library, http: Http, c: Args.Crate, v: Semver.Version) {
    || Args.ExactVersion(c) == Some(v)
    || (Args.ExactVersion(c).None? && Registry.GetNewestVersion(lib, c, http.getJson) == Success(v))
  }

  /** How a run ends. */
  datatype Outcome =
    | UsageError(argsError: Args.ArgsError)
    | LookupFailed(lookupError: Registry.LookupError)
    | DownloadFailed(message: string)
      /** The archive bytes were handed to the output in one `write`. */
    | Written(version: Semver.Version, archive: seq<bv8>)
      /** The archive was unpacked in the current directory; `dir` is the directory it is expected to produce. */
    | Extracted(version: Semver.Version, archive: seq<bv8>, dir: string)

  /** A run: the URLs requested, in order, and how it ended. */
  datatype Run = Run(requests: seq<string>, outcome: Outcome)

  /**
   * The steps of `main` after the version `v` is settled: request the
   * download, then deliver the archive to the output or extract it.
   */
  function Deliver(http: Http, name: string, v: Semver.Version, extract: bool): (o: Outcome)
    ensures var download := http.getBytes(DownloadUrl(name, v));
      && (o.DownloadFailed? <==> download.Failure?)
      && (download.Failure? ==> o.message == download.error)
      && (download.Success? ==>
            o == if extract then Extracted(v, download.value, ExtractDir(name, v)) else Written(v, download.value))
    ensures o.DownloadFailed? || o.Written? || o.Extracted?
    ensures o.Written? || o.Extracted? ==> o.version == v && http.getBytes(DownloadUrl(name, v)) == Success(o.archive)
    ensures o.Written? ==> !extract
    ensures o.Extracted? ==> extract && o.dir == ExtractDir(name, v)
  {
    match http.getBytes(DownloadUrl(name, v))
    case Failure(m) => DownloadFailed(m)
    case Success(bytes) =>
      if extract then Extracted(v, bytes, ExtractDir(name, v)) else Written(v, bytes)
  }

  /**
   * `main` from parsed options on: settle the version, download the archive
   * for it, then write it out or extract it.
   */
  function Execute(lib: Semver.Library, http: Http, opts: Args.Options): (r: Run)
    ensures forall v :: Args.ExactVersion(opts.crate) == Some(v) ==>
      && r.requests == [DownloadUrl(opts.crate.name, v)]
      && (r.outcome.Written? || r.outcome.Extracted? ==> r.outcome.version == v)
    ensures Args.ExactVersion(opts.crate).None? ==>
      && 1 <= |r.requests| <= 2
      && r.requests[0] == Registry.VersionsUrl(opts.crate.name)
      && (r.outcome.LookupFailed? <==> Registry.GetNewestVersion(lib, opts.crate, http.getJson).Failure?)
      && (r.outcome.Written? || r.outcome.Extracted? ==>
            Registry.GetNewestVersion(lib, opts.crate, http.getJson) == Success(r.outcome.version))
    ensures r.outcome.LookupFailed? ==> r.requests == [Registry.VersionsUrl(opts.crate.name)]
    ensures !r.outcome.UsageError?
    ensures r.outcome.Written? || r.outcome.Extracted? ==>
      var v := r.outcome.version;
      && r.requests == ResolveVersion(lib, http, opts.crate).requests + [DownloadUrl(opts.crate.name, v)]
      && http.getBytes(DownloadUrl(opts.crate.name, v)) == Success(r.outcome.archive)
    ensures r.outcome.Written? ==> !opts.extract
    ensures r.outcome.Extracted? ==> opts.extract && r.outcome.dir == ExtractDir(opts.crate.name, r.outcome.version)
    ensures var res := ResolveVersion(lib, http, opts.crate);
      res.version.Failure? ==> r == Run(res.requests, LookupFailed(res.version.error))
    ensures var res := ResolveVersion(lib, http, opts.crate);
      res.version.Success? ==> r.requests == res.requests + [DownloadUrl(opts.crate.name, res.version.value)]
    ensures r.outcome.Written? || r.outcome.Extracted? ==> Settles(lib, http, opts.crate, r.outcome.version)
    ensures ResolveVersion(lib, http, opts.crate).version.Success? ==>
      var v := ResolveVersion(lib, http, opts.crate).version.value;
      var download := http.getBytes(DownloadUrl(opts.crate.name, v));
      && (r.outcome.DownloadFailed? <==> download.Failure?)
      && (download.Failure? ==> r.outcome.message == download.error)
      && (download.Success? ==>
            r.outcome == if opts.extract then Extracted(v, download.value, ExtractDir(opts.crate.name, v))
                         else Written(v, download.value))
  {
    var resolution := ResolveVersion(lib, http, opts.crate);
    match resolution.version
    case Failure(e) => Run(resolution.requests, LookupFailed(e))
    case Success(v) =>
      Run(resolution.requests + [DownloadUrl(opts.crate.name, v)], Deliver(http, opts.crate.name, v, opts.extract))
  }

  /** The whole program: options from the command line, then the run. */
  function Program(lib: Semver.Library, unicodeAlnum: char -> bool, verboseCount: nat, quietCount: nat,
                   crateArg: string, extract: bool, http: Http): (r: Run)
    ensures Args.OptionsFrom(lib, unicodeAlnum, verboseCount, quietCount, crateArg, extract).Failure? ==>
      && r.requests == []
      && r.outcome == UsageError(Args.OptionsFrom(lib, unicodeAlnum, verboseCount, quietCount, crateArg, extract).error)
    ensures Args.OptionsFrom(lib, unicodeAlnum, verboseCount, quietCount, crateArg, extract).Success? ==>
      && !r.outcome.UsageError?
      && r == Execute(lib, http, Args.OptionsFrom(lib, unicodeAlnum, verboseCount, quietCount, crateArg, extract).value)
  {
    match Args.OptionsFrom(lib, unicodeAlnum, verboseCount, quietCount, crateArg, extract)
    case Failure(e) => Run([], UsageError(e))
    case Success(opts) => Execute(lib, http, opts)
  }

  /** A name without a version that has a character outside letters, digits, `-` and `_` fails before any request. */
  lemma InvalidNameMakesNoRequest(lib: Semver.Library, unicodeAlnum: char -> bool, verboseCount: nat, quietCount: nat,
                                  crateArg: string, extract: bool, http: Http)
    requires '=' !in crateArg
    requires !Args.ValidName(Text.Trim(crateArg), unicodeAlnum)
    ensures Program(lib, unicodeAlnum, verboseCount, quietCount, crateArg, extract, http)
      == Run([], UsageError(Args.InvalidCrate(Args.Name(Text.Trim(crateArg)))))
  {
  }

  /** `foo bar` is rejected as a crate name, and nothing is requested. */
  lemma FooBarRejected(lib: Semver.Library, unicodeAlnum: char -> bool, http: Http)
    ensures Program(lib, unicodeAlnum, 0, 0, "foo bar", false, http)
      == Run([], UsageError(Args.InvalidCrate(Args.Name("foo bar"))))
  {
    var s := "foo bar";
    assert Text.Trimmed(s);
    assert !Args.IsNameChar(s[3], unicodeAlnum);
    InvalidNameMakesNoRequest(lib, unicodeAlnum, 0, 0, s, false, http);
  }

  /** A registry entry with the given `num`. */
  function Entry(num: string): Registry.Json {
    Registry.Object(map["num" := Registry.Str(num)])
  }

  /**
   * A lookup that settles on `v`, followed by a successful download with
   * extraction on, requests exactly the versions and download endpoints and
   * unpacks the archive into `./<name>-<v>`.
   */
  lemma LookupThenExtract(lib: Semver.Library, http: Http, opts: Args.Options, v: Semver.Version, archive: seq<bv8>)
    requires opts.crate.version.Other? && opts.extract
    requires Registry.GetNewestVersion(lib, opts.crate, http.getJson) == Success(v)
    requires http.getBytes(DownloadUrl(opts.crate.name, v)) == Success(archive)
    ensures Execute(lib, http, opts)
      == Run([Registry.VersionsUrl(opts.crate.name), DownloadUrl(opts.crate.name, v)],
             Extracted(v, archive, ExtractDir(opts.crate.name, v)))
  {
    var res := ResolveVersion(lib, http, opts.crate);
    assert res == Resolution([Registry.VersionsUrl(opts.crate.name)], Success(v));
  }

  lemma DemoName(lib: Semver.Library, unicodeAlnum: char -> bool)
    ensures Args.ParseCrate(lib, unicodeAlnum, "demo") == Success(Args.Crate("demo", Args.Other(Semver.AnyReq)))
  {
    var s := "demo";
    assert Text.Trimmed(s);
    assert Text.SplitFirst(s, '=') == None;
    assert Args.ValidName(s, unicodeAlnum);
  }

  lemma DemoDir()
    ensures ExtractDir("demo", Semver.Version(1, 1, 0, [])) == "./demo-1.1.0"
  {
    assert Semver.ShowVersion(Semver.Version(1, 1, 0, [])) == "1.1.0";
  }

  /** The versions listing of the `demo` scenario: 0.9.0, 1.0.0 and 1.1.0. */
  const DemoEntries: seq<Registry.Json> := [Entry("0.9.0"), Entry("1.0.0"), Entry("1.1.0")]
  const DemoResponse: Registry.Json := Registry.Object(map["versions" := Registry.Array(DemoEntries)])
  const DemoVersions: seq<Semver.Version> :=
    [Semver.Version(0, 9, 0, []), Semver.Version(1, 0, 0, []), Semver.Version(1, 1, 0, [])]

  /** What the library makes of the three version texts of the scenario. */
  ghost predicate ParsesDemo(lib: Semver.Library) {
    && lib.parseVersion("0.9.0") == Success(Semver.Version(0, 9, 0, []))
    && lib.parseVersion("1.0.0") == Success(Semver.Version(1, 0, 0, []))
    && lib.parseVersion("1.1.0") == Success(Semver.Version(1, 1, 0, []))
  }

  /** The three entries yield their three versions, in order. */
  lemma DemoValidVersions(lib: Semver.Library)
    requires ParsesDemo(lib)
    ensures Registry.ValidVersions(lib, DemoEntries) == DemoVersions
  {
    var entries := DemoEntries;
    assert Registry.EntryVersion(lib, entries[0]) == Some(DemoVersions[0]);
    assert Registry.EntryVersion(lib, entries[1]) == Some(DemoVersions[1]);
    assert Registry.EntryVersion(lib, entries[2]) == Some(DemoVersions[2]);
    assert entries[1..][1..][1..] == [];
  }

  /** 1.1.0 is the newest of the three, and `any` accepts it. */
  lemma DemoNewest(lib: Semver.Library)
    ensures Registry.IsNewestMatch(lib, Semver.AnyReq, DemoVersions, Semver.Version(1, 1, 0, []))
  {
    var v := Semver.Version(1, 1, 0, []);
    var vs := DemoVersions;
    assert v == vs[2];
    forall w | w in vs ensures !Semver.Newer(w, v) {
      assert w == vs[0] || w == vs[1] || w == vs[2];
    }
  }

  lemma DemoLookup(lib: Semver.Library, getJson: string -> Result<Registry.Json, string>)
    requires ParsesDemo(lib)
    requires getJson(Registry.VersionsUrl("demo")) == Success(DemoResponse)
    ensures Registry.GetNewestVersion(lib, Args.Crate("demo", Args.Other(Semver.AnyReq)), getJson)
      == Success(Semver.Version(1, 1, 0, []))
  {
    DemoValidVersions(lib);
    DemoNewest(lib);
    assert Registry.VersionsArray(DemoResponse) == Some(DemoEntries);
    Registry.LookupFindsNewest(lib, Args.Crate("demo", Args.Other(Semver.AnyReq)), getJson,
                               DemoEntries, Semver.Version(1, 1, 0, []));
  }

  /**
   * `demo` without a version, with extraction: the registry lists 0.9.0,
   * 1.0.0 and 1.1.0, so 1.1.0 is downloaded and lands in `./demo-1.1.0`.
   */
  lemma DemoScenario(lib: Semver.Library, unicodeAlnum: char -> bool, http: Http, archive: seq<bv8>)
    requires ParsesDemo(lib)
    requires http.getJson(Registry.VersionsUrl("demo")) == Success(DemoResponse)
    requires http.getBytes(DownloadUrl("demo", Semver.Version(1, 1, 0, []))) == Success(archive)
    ensures var v := Semver.Version(1, 1, 0, []);
      Program(lib, unicodeAlnum, 0, 0, "demo", true, http)
        == Run([Registry.VersionsUrl("demo"), DownloadUrl("demo", v)], Extracted(v, archive, ExtractDir("demo", v)))
    ensures ExtractDir("demo", Semver.Version(1, 1, 0, [])) == "./demo-1.1.0"
  {
    var v := Semver.Version(1, 1, 0, []);
    var c := Args.Crate("demo", Args.Other(Semver.AnyReq));
    var opts := Args.Options(0, c, true);
    DemoName(lib, unicodeAlnum);
    assert Args.OptionsFrom(lib, unicodeAlnum, 0, 0, "demo", true) == Success(opts);
    DemoLookup(lib, http.getJson);
    LookupThenExtract(lib, http, opts, v, archive);
    DemoDir();
  }
}

=== FILE: registry.dfy ===
/**
 * Looking up the newest matching version of a crate on crates.io
 * (`get_newest_version` in `src/main.rs`). The HTTP request and the JSON
 * decoding of its body are a parameter: a function from URL to a decoded
 * document or an error message.
 */
module Registry {
  import opened Wrappers
  import opened Lex
  import Text
  import Semver
  import Args

  /** `CRATES_API_ROOT`. */
  const CratesApiRoot: string := "https://crates.io/api/v1/crates"

  /** The versions endpoint of a crate: `<root>/<name>/versions`. */
  function VersionsUrl(name: string): (r: string)
    ensures |r| == |CratesApiRoot| + |name| + 10
    ensures r[..|CratesApiRoot| + 1] == CratesApiRoot + "/"
    ensures r[|CratesApiRoot| + 1..|r| - 9] == name
    ensures r[|r| - 9..] == "/versions"
  {
    CratesApiRoot + "/" + name + "/versions"
  }

  /** Different crate names query different URLs. */
  lemma VersionsUrlInjective(n1: string, n2: string)
    requires VersionsUrl(n1) == VersionsUrl(n2)
    ensures n1 == n2
  {
    Text.SameAffixes(CratesApiRoot + "/", n1, n2, "/versions");
  }

  /** A decoded JSON document (`serde_json::Value`); objects are maps from keys to values. */
  datatype Json =
    | Null
    | Bool(b: bool)
    | Number(literal: string)
    | Str(s: string)
    | Array(items: seq<Json>)
    | Object(members: map<string, Json>)

  /** The ways the lookup fails; `Transport` carries the request or decoding error. */
  datatype LookupError = Transport(message: string) | Malformed(url: string) | NoValidVersions | NoMatchingVersion

  /** The text each failure is reported with. */
  function Message(e: LookupError): string {
    match e
    case Transport(m) => m
    case Malformed(url) => "malformed response from " + url
    case NoValidVersions => "no valid versions found"
    case NoMatchingVersion => "no matching version found"
  }

  /**
   * The failures the program words itself are told apart by their text, and
   * the text for a malformed response names the URL it came from.
   */
  lemma MessagesDistinct(e1: LookupError, e2: LookupError)
    requires !e1.Transport? && !e2.Transport?
    requires Message(e1) == Message(e2)
    ensures e1 == e2
  {
    if e1.Malformed? && e2.Malformed? {
      Text.SameAffixes("malformed response from ", e1.url, e2.url, "");
    } else {
      assert Message(e1)[0] == Message(e2)[0];
      assert |Message(e1)| == |Message(e2)|;
    }
  }

  /**
   * `response.pointer("/versions").and_then(as_array)`: the array under the
   * `versions` key of a top-level object, if there is one.
   */
  function VersionsArray(response: Json): (r: Option<seq<Json>>)
    ensures r.Some? <==>
      response.Object? && "versions" in response.members && response.members["versions"].Array?
    ensures r.Some? ==> r.value == response.members["versions"].items
  {
    match response
    case Object(m) =>
      if "versions" in m && m["versions"].Array? then Some(m["versions"].items) else None
    case _ => None
  }

  /**
   * One entry of the array: its `num` field, when the entry is an object
   * and the field is a string, parsed as a version; `None` drops the entry.
   */
  function EntryVersion(lib: Semver.Library, entry: Json): (r: Option<Semver.Version>)
    ensures r.Some? <==>
      && entry.Object? && "num" in entry.members && entry.members["num"].Str?
      && lib.parseVersion(entry.members["num"].s).Success?
    ensures r.Some? ==> lib.parseVersion(entry.members["num"].s) == Success(r.value)
  {
    match entry
    case Object(m) =>
      if "num" in m && m["num"].Str? then
        match lib.parseVersion(m["num"].s)
        case Success(v) => Some(v)
        case Failure(_) => None
      else None
    case _ => None
  }

  /**
   * The versions of the entries that yield one; every other entry is
   * silently dropped.
   */
  function ValidVersions(lib: Semver.Library, entries: seq<Json>): (r: seq<Semver.Version>)
    ensures |r| <= |entries|
    ensures forall v :: v in r <==> exists e :: e in entries && EntryVersion(lib, e) == Some(v)
  {
    if |entries| == 0 then []
    else
      var rest := ValidVersions(lib, entries[1..]);
      assert forall e :: e in entries <==> e == entries[0] || e in entries[1..];
      match EntryVersion(lib, entries[0])
      case Some(v) => [v] + rest
      case None => rest
  }

  // ----- descending sort -----

  /** Every version is at least as high as each one after it. */
  ghost predicate Descending(s: seq<Semver.Version>) {
    forall i, j :: 0 <= i < j < |s| ==> Semver.AtLeast(s[i], s[j])
  }

  /** Putting in front a version at least as high as all others keeps the order. */
  lemma DescendingCons(x: Semver.Version, s: seq<Semver.Version>)
    requires Descending(s)
    requires forall k :: 0 <= k < |s| ==> Semver.AtLeast(x, s[k])
    ensures Descending([x] + s)
  {
    var t := [x] + s;
    forall i, j | 0 <= i < j < |t| ensures Semver.AtLeast(t[i], t[j]) {
      if i > 0 {
        assert t[i] == s[i - 1] && t[j] == s[j - 1];
      }
    }
  }

  /** A version at least as high as the first of a descending sequence is at least as high as all of it. */
  lemma AboveHead(x: Semver.Version, s: seq<Semver.Version>)
    requires Descending(s) && |s| > 0 && Semver.AtLeast(x, s[0])
    ensures forall k :: 0 <= k < |s| ==> Semver.AtLeast(x, s[k])
  {
    forall k | 0 <= k < |s| ensures Semver.AtLeast(x, s[k]) {
      if k > 0 {
        Semver.AtLeastTrans(x, s[0], s[k]);
      }
    }
  }

  /**
   * When `x` goes below the head of a descending sequence, the head is at
   * least as high as everything the rest becomes once `x` is put into it.
   */
  lemma HeadAboveInserted(x: Semver.Version, s: seq<Semver.Version>, t: seq<Semver.Version>)
    requires Descending(s) && |s| > 0 && !Semver.AtLeast(x, s[0])
    requires multiset(t) == multiset(s[1..]) + multiset{x}
    ensures forall k :: 0 <= k < |t| ==> Semver.AtLeast(s[0], t[k])
  {
    forall k | 0 <= k < |t| ensures Semver.AtLeast(s[0], t[k]) {
      var y := t[k];
      assert y in multiset(t);
      if y == x {
        Semver.NotAtLeast(x, s[0]);
      } else {
        assert y in multiset(s[1..]);
        var m :| 0 <= m < |s[1..]| && s[1..][m] == y;
        assert s[m + 1] == y;
      }
    }
  }

  /** Insertion of `x` into a descending sequence. */
  function Insert(x: Semver.Version, s: seq<Semver.Version>): (r: seq<Semver.Version>)
    requires Descending(s)
    ensures Descending(r)
    ensures multiset(r) == multiset(s) + multiset{x}
  {
    if |s| == 0 then [x]
    else if Semver.AtLeast(x, s[0]) then
      AboveHead(x, s);
      DescendingCons(x, s);
      [x] + s
    else
      var t := Insert(x, s[1..]);
      assert s == [s[0]] + s[1..];
      HeadAboveInserted(x, s, t);
      DescendingCons(s[0], t);
      [s[0]] + t
  }

  /** `versions.sort_by(|a, b| b.cmp(a))`: the same versions, highest first. */
  function SortDescending(vs: seq<Semver.Version>): (r: seq<Semver.Version>)
    ensures Descending(r)
    ensures multiset(r) == multiset(vs)
  {
    if |vs| == 0 then []
    else
      assert vs == [vs[0]] + vs[1..];
      Insert(vs[0], SortDescending(vs[1..]))
  }

  // ----- selection -----

  /** The position of the first version the requirement accepts, `|s|` when there is none. */
  function FirstMatchIndex(lib: Semver.Library, req: Semver.VersionReq, s: seq<Semver.Version>): (k: nat)
    ensures k <= |s|
    ensures forall j :: 0 <= j < k ==> !Semver.Matches(lib, req, s[j])
    ensures k < |s| ==> Semver.Matches(lib, req, s[k])
  {
    if |s| == 0 then 0
    else if Semver.Matches(lib, req, s[0]) then 0
    else 1 + FirstMatchIndex(lib, req, s[1..])
  }

  /**
   * `v` is a version of `vs` that `req` accepts, and no accepted version
   * of `vs` is newer.
   */
  predicate IsNewestMatch(lib: Semver.Library, req: Semver.VersionReq, vs: seq<Semver.Version>, v: Semver.Version) {
    && v in vs
    && Semver.Matches(lib, req, v)
    && forall w :: w in vs && Semver.Matches(lib, req, w) ==> !Semver.Newer(w, v)
  }

  /** At most one version is the newest match. */
  lemma NewestMatchUnique(lib: Semver.Library, req: Semver.VersionReq, vs: seq<Semver.Version>,
                          v: Semver.Version, w: Semver.Version)
    requires IsNewestMatch(lib, req, vs, v) && IsNewestMatch(lib, req, vs, w)
    ensures v == w
  {
    Semver.CmpFlip(v, w);
    Semver.CmpEqual(v, w);
  }

  /** In a descending sequence the first accepted version is at least every accepted one. */
  lemma FirstMatchIsHighest(lib: Semver.Library, req: Semver.VersionReq, s: seq<Semver.Version>)
    requires Descending(s)
    requires FirstMatchIndex(lib, req, s) < |s|
    ensures forall j :: 0 <= j < |s| && Semver.Matches(lib, req, s[j]) ==>
      Semver.AtLeast(s[FirstMatchIndex(lib, req, s)], s[j])
  {
    var k := FirstMatchIndex(lib, req, s);
    forall j | 0 <= j < |s| && Semver.Matches(lib, req, s[j])
      ensures Semver.AtLeast(s[k], s[j])
    {
      if j == k {
        Semver.CmpEqual(s[k], s[j]);
      }
    }
  }

  /**
   * Sort highest first, then take the first accepted version
   * (`into_iter().find(..)`): the newest accepted version, or `None`
   * exactly when no version is accepted.
   */
  function NewestMatching(lib: Semver.Library, req: Semver.VersionReq, vs: seq<Semver.Version>): (r: Option<Semver.Version>)
    ensures r.None? <==> forall v :: v in vs ==> !Semver.Matches(lib, req, v)
    ensures r.Some? ==> IsNewestMatch(lib, req, vs, r.value)
  {
    var s := SortDescending(vs);
    var k := FirstMatchIndex(lib, req, s);
    assert forall v :: v in vs <==> v in s by {
      forall v ensures v in vs <==> v in s {
        assert v in vs <==> v in multiset(vs);
        assert v in s <==> v in multiset(s);
      }
    }
    if k < |s| then
      var v := s[k];
      FirstMatchIsHighest(lib, req, s);
      assert forall w :: w in vs && Semver.Matches(lib, req, w) ==> !Semver.Newer(w, v) by {
        forall w | w in vs && Semver.Matches(lib, req, w) ensures !Semver.Newer(w, v) {
          var j :| 0 <= j < |s| && s[j] == w;
          Semver.CmpFlip(v, w);
        }
      }
      Some(v)
    else
      None
  }

  /**
   * `get_newest_version`: query `<root>/<name>/versions`, keep the versions
   * of the `versions` array that parse, and pick the newest one the crate's
   * requirement accepts. Failures: the request or decoding error as is; a
   * response without a `versions` array is malformed (naming the URL); an
   * empty list after filtering means no valid versions; and no accepted
   * version means no matching version.
   */
  function GetNewestVersion(lib: Semver.Library, c: Args.Crate, getJson: string -> Result<Json, string>)
    : (r: Result<Semver.Version, LookupError>)
    ensures getJson(VersionsUrl(c.name)).Failure? ==>
      r == Failure(Transport(getJson(VersionsUrl(c.name)).error))
    ensures getJson(VersionsUrl(c.name)).Success? && VersionsArray(getJson(VersionsUrl(c.name)).value).None? ==>
      r == Failure(Malformed(VersionsUrl(c.name)))
    ensures getJson(VersionsUrl(c.name)).Success? && VersionsArray(getJson(VersionsUrl(c.name)).value).Some? ==>
      var vs := ValidVersions(lib, VersionsArray(getJson(VersionsUrl(c.name)).value).value);
      var req := Args.VersionRequirement(c);
      && (|vs| == 0 <==> r == Failure(NoValidVersions))
      && (r.Success? ==> IsNewestMatch(lib, req, vs, r.value))
      && (r == Failure(NoMatchingVersion) <==> |vs| > 0 && forall v :: v in vs ==> !Semver.Matches(lib, req, v))
      && (r.Success? || r == Failure(NoValidVersions) || r == Failure(NoMatchingVersion))
  {
    var url := VersionsUrl(c.name);
    match getJson(url)
    case Failure(m) => Failure(Transport(m))
    case Success(response) =>
      match VersionsArray(response)
      case None => Failure(Malformed(url))
      case Some(entries) =>
        var versions := ValidVersions(lib, entries);
        if |versions| == 0 then Failure(NoValidVersions)
        else
          match NewestMatching(lib, Args.VersionRequirement(c), versions)
          case Some(v) => Success(v)
          case None => Failure(NoMatchingVersion)
  }

  /**
   * Conversely, whenever the versions endpoint answers with a `versions`
   * array, the lookup returns the newest accepted version among the entries.
   */
  lemma LookupFindsNewest(lib: Semver.Library, c: Args.Crate, getJson: string -> Result<Json, string>,
                          entries: seq<Json>, v: Semver.Version)
    requires getJson(VersionsUrl(c.name)).Success?
    requires VersionsArray(getJson(VersionsUrl(c.name)).value) == Some(entries)
    requires IsNewestMatch(lib, Args.VersionRequirement(c), ValidVersions(lib, entries), v)
    ensures GetNewestVersion(lib, c, getJson) == Success(v)
  {
    var vs := ValidVersions(lib, entries);
    var req := Args.VersionRequirement(c);
    var r := GetNewestVersion(lib, c, getJson);
    assert r.Success?;
    NewestMatchUnique(lib, req, vs, v, r.value);
  }

  /**
   * With the `any` requirement (a name given without a version) the lookup
   * picks the highest version listed, pre-releases included.
   */
  lemma AnyPicksHighest(lib: Semver.Library, vs: seq<Semver.Version>)
    requires |vs| > 0
    ensures NewestMatching(lib, Semver.AnyReq, vs).Some?
    ensures forall w :: w in vs ==> Semver.AtLeast(NewestMatching(lib, Semver.AnyReq, vs).value, w)
  {
    assert Semver.Matches(lib, Semver.AnyReq, vs[0]);
    var v := NewestMatching(lib, Semver.AnyReq, vs).value;
    forall w | w in vs ensures Semver.AtLeast(v, w) {
      Semver.CmpFlip(v, w);
    }
  }
}

=== FILE: semver.dfy ===
/**
 * The parts of the `semver` crate the program relies on.
 *
 * `Version` and its precedence order (section 11 of Semantic Versioning
 * 2.0.0, which the crate's `Ord` implements) and its `Display` are defined
 * here. Parsing version and requirement text, and deciding whether a range
 * requirement such as `^1.2` accepts a version, are the crate's internals:
 * they arrive as a `Library` value, and the laws the model needs of them are
 * stated as predicates that lemmas require.
 */
module Semver {
  import opened Wrappers
  import opened Lex
  import Text

  /** A pre-release identifier: numeric identifiers sort before alphanumeric ones. */
  datatype Identifier = Numeric(n: nat) | AlphaNumeric(s: string)

  /**
   * `semver::Version` without build metadata: the crate ignores build
   * metadata in both equality and ordering.
   */
  datatype Version = Version(major: nat, minor: nat, patch: nat, pre: seq<Identifier>)

  // ----- precedence -----

  function NatCmp(m: nat, n: nat): Ordering {
    if m < n then Less else if m == n then Equal else Greater
  }

  /** Rust's `Ord` for `char` (code-point order, which is also the order of `String` bytes). */
  function CharCmp(a: char, b: char): Ordering {
    if a < b then Less else if a == b then Equal else Greater
  }

  /** Identifier precedence: numerically, lexically, and numeric before alphanumeric. */
  function IdentCmp(a: Identifier, b: Identifier): (r: Ordering)
    ensures a.Numeric? && b.AlphaNumeric? ==> r == Less
    ensures a.AlphaNumeric? && b.Numeric? ==> r == Greater
    ensures a.Numeric? && b.Numeric? ==> (r == Less <==> a.n < b.n) && (r == Equal <==> a.n == b.n)
  {
    match (a, b)
    case (Numeric(m), Numeric(n)) => NatCmp(m, n)
    case (Numeric(_), AlphaNumeric(_)) => Less
    case (AlphaNumeric(_), Numeric(_)) => Greater
    case (AlphaNumeric(s), AlphaNumeric(t)) => Lex.Compare(s, t, CharCmp)
  }

  /**
   * Version precedence: major, minor and patch numerically; then a version
   * with a pre-release sorts before the same version without one; then the
   * pre-release identifiers lexicographically.
   */
  function Cmp(a: Version, b: Version): (r: Ordering)
    ensures a.major < b.major ==> r == Less
    ensures a.major == b.major && a.minor < b.minor ==> r == Less
    ensures a.major == b.major && a.minor == b.minor && a.patch < b.patch ==> r == Less
    ensures a.major == b.major && a.minor == b.minor && a.patch == b.patch && |a.pre| > 0 && |b.pre| == 0 ==>
      r == Less
  {
    if a.major != b.major then NatCmp(a.major, b.major)
    else if a.minor != b.minor then NatCmp(a.minor, b.minor)
    else if a.patch != b.patch then NatCmp(a.patch, b.patch)
    else if |a.pre| == 0 && |b.pre| == 0 then Equal
    else if |a.pre| == 0 then Greater
    else if |b.pre| == 0 then Less
    else Lex.Compare(a.pre, b.pre, IdentCmp)
  }

  /** `a >= b` in version precedence. */
  predicate AtLeast(a: Version, b: Version) {
    Cmp(a, b) != Less
  }

  /** `a > b` in version precedence. */
  predicate Newer(a: Version, b: Version) {
    Cmp(a, b) == Greater
  }

  lemma CharCmpTotal()
    ensures TotalOrder(CharCmp)
  {
  }

  lemma IdentCmpTotal()
    ensures TotalOrder(IdentCmp)
  {
    CharCmpTotal();
    forall a, b ensures IdentCmp(a, b) == Equal <==> a == b {
      if a.AlphaNumeric? && b.AlphaNumeric? {
        Lex.CompareEqual(a.s, b.s, CharCmp);
      }
    }
    forall a, b ensures IdentCmp(b, a) == IdentCmp(a, b).Flip() {
      if a.AlphaNumeric? && b.AlphaNumeric? {
        Lex.CompareFlip(a.s, b.s, CharCmp);
      }
    }
    forall a, b, c | IdentCmp(a, b) == Less && IdentCmp(b, c) == Less
      ensures IdentCmp(a, c) == Less
    {
      if a.AlphaNumeric? && b.AlphaNumeric? && c.AlphaNumeric? {
        Lex.CompareTrans(a.s, b.s, c.s, CharCmp);
      }
    }
  }

  /** Versions compare `Equal` exactly when they are the same version. */
  lemma CmpEqual(a: Version, b: Version)
    ensures Cmp(a, b) == Equal <==> a == b
  {
    if a.major == b.major && a.minor == b.minor && a.patch == b.patch && |a.pre| > 0 && |b.pre| > 0 {
      IdentCmpTotal();
      Lex.CompareEqual(a.pre, b.pre, IdentCmp);
    }
  }

  /** Swapping the operands flips the comparison. */
  lemma CmpFlip(a: Version, b: Version)
    ensures Cmp(b, a) == Cmp(a, b).Flip()
  {
    if a.major == b.major && a.minor == b.minor && a.patch == b.patch && |a.pre| > 0 && |b.pre| > 0 {
      IdentCmpTotal();
      Lex.CompareFlip(a.pre, b.pre, IdentCmp);
    }
  }

  /** Version precedence is transitive. */
  lemma CmpTrans(a: Version, b: Version, c: Version)
    requires Cmp(a, b) == Less && Cmp(b, c) == Less
    ensures Cmp(a, c) == Less
  {
    if a.major == b.major == c.major && a.minor == b.minor == c.minor && a.patch == b.patch == c.patch
      && |a.pre| > 0 && |b.pre| > 0 && |c.pre| > 0
    {
      IdentCmpTotal();
      Lex.CompareTrans(a.pre, b.pre, c.pre, IdentCmp);
    }
  }

  /** `Cmp` is a total order on versions, as Rust's `Ord` contract demands. */
  /**
   * With equal numbers, a pre-release whose identifiers are a proper prefix
   * of another's sorts first (`1.0.0-alpha` before `1.0.0-alpha.1`).
   */
  lemma ShorterPreFirst(a: Version, b: Version)
    requires a.major == b.major && a.minor == b.minor && a.patch == b.patch
    requires 0 < |a.pre| < |b.pre| && a.pre == b.pre[..|a.pre|]
    ensures Cmp(a, b) == Less
  {
    IdentCmpTotal();
    Lex.ComparePrefix(a.pre, b.pre, IdentCmp);
  }

  lemma CmpTotal()
    ensures TotalOrder(Cmp)
  {
    forall a, b ensures Cmp(a, b) == Equal <==> a == b {
      CmpEqual(a, b);
    }
    forall a, b ensures Cmp(b, a) == Cmp(a, b).Flip() {
      CmpFlip(a, b);
    }
    forall a, b, c | Cmp(a, b) == Less && Cmp(b, c) == Less ensures Cmp(a, c) == Less {
      CmpTrans(a, b, c);
    }
  }

  /** `>=` is transitive. */
  lemma AtLeastTrans(a: Version, b: Version, c: Version)
    requires AtLeast(a, b) && AtLeast(b, c)
    ensures AtLeast(a, c)
  {
    CmpEqual(a, b);
    CmpEqual(b, c);
    CmpFlip(a, b);
    CmpFlip(b, c);
    CmpFlip(a, c);
    if Cmp(a, b) == Greater && Cmp(b, c) == Greater {
      CmpTrans(c, b, a);
    }
  }

  /** Any two versions are comparable: `!(a >= b)` means `b > a`. */
  lemma NotAtLeast(a: Version, b: Version)
    requires !AtLeast(a, b)
    ensures Newer(b, a) && AtLeast(b, a)
  {
    CmpFlip(a, b);
  }

  // ----- well-formedness and display -----

  predicate IsDigit(c: char) {
    '0' <= c <= '9'
  }

  predicate IsAsciiAlphanumeric(c: char) {
    IsDigit(c) || ('a' <= c <= 'z') || ('A' <= c <= 'Z')
  }

  /** A character of a pre-release identifier (section 9 of Semantic Versioning 2.0.0). */
  predicate IsIdentChar(c: char) {
    IsAsciiAlphanumeric(c) || c == '-'
  }

  /** A character that can appear in a displayed version without build metadata. */
  predicate IsVersionChar(c: char) {
    IsIdentChar(c) || c == '.'
  }

  /** One past the largest value of the crate's numeric fields, which are `u64`. */
  const U64Limit: nat := 0x1_0000_0000_0000_0000

  /**
   * An identifier that displays as identifier text: any number, or a
   * non-empty string of identifier characters.
   */
  predicate IdentText(id: Identifier) {
    match id
    case Numeric(_) => true
    case AlphaNumeric(s) => |s| > 0 && forall i :: 0 <= i < |s| ==> IsIdentChar(s[i])
  }

  /** A version whose pre-release identifiers all display as identifier text. */
  predicate Displayable(v: Version) {
    forall i :: 0 <= i < |v.pre| ==> IdentText(v.pre[i])
  }

  /**
   * An identifier whose display reads back to itself: a numeric one fits
   * in a `u64`; an alphanumeric one is identifier text that is not all
   * digits, since all-digit text is read back as a number. The semver
   * parser may still produce an all-digit alphanumeric identifier such as
   * the `01` of `1.0.0-01`; such an identifier is displayable but not
   * well-formed.
   */
  predicate WellFormedIdent(id: Identifier) {
    && IdentText(id)
    && match id
      case Numeric(n) => n < U64Limit
      case AlphaNumeric(s) => exists i :: 0 <= i < |s| && !IsDigit(s[i])
  }

  /** A version with `u64` fields and well-formed identifiers: its display reads back to itself. */
  predicate WellFormed(v: Version) {
    && v.major < U64Limit && v.minor < U64Limit && v.patch < U64Limit
    && forall i :: 0 <= i < |v.pre| ==> WellFormedIdent(v.pre[i])
  }


  predicate AllDigits(s: string) {
    forall i :: 0 <= i < |s| ==> IsDigit(s[i])
  }

  function DigitChar(d: nat): (c: char)
    requires d < 10
    ensures IsDigit(c)
  {
    ['0', '1', '2', '3', '4', '5', '6', '7', '8', '9'][d]
  }

  /** The value of a string of decimal digits. */
  function DecimalValue(s: string): nat
    requires AllDigits(s)
  {
    if |s| == 0 then 0
    else
      assert IsDigit(s[|s| - 1]);
      DecimalValue(s[..|s| - 1]) * 10 + (s[|s| - 1] as int - '0' as int)
  }

  /** Decimal display of a number: non-empty digits without a leading zero. */
  function NatToString(n: nat): (r: string)
    ensures |r| > 0
    ensures AllDigits(r)
    ensures r[0] == '0' ==> n == 0
  {
    if n < 10 then [DigitChar(n)] else NatToString(n / 10) + [DigitChar(n % 10)]
  }

  /** Reading the displayed digits back gives the number. */
  lemma {:induction false} DecimalRoundTrip(n: nat)
    ensures DecimalValue(NatToString(n)) == n
  {
    var s := NatToString(n);
    if n >= 10 {
      DecimalRoundTrip(n / 10);
      assert s[..|s| - 1] == NatToString(n / 10);
    }
  }

  function ShowIdent(id: Identifier): (r: string)
    ensures IdentText(id) ==> |r| > 0 && forall i :: 0 <= i < |r| ==> IsIdentChar(r[i])
  {
    match id
    case Numeric(n) => NatToString(n)
    case AlphaNumeric(s) => s
  }

  /** Identifiers separated by dots. */
  function JoinIdents(ids: seq<Identifier>): (r: string)
    requires |ids| > 0
    ensures (forall i :: 0 <= i < |ids| ==> IdentText(ids[i])) ==>
      && |r| > 0
      && (forall i :: 0 <= i < |r| ==> IsVersionChar(r[i]))
      && IsIdentChar(r[|r| - 1])
  {
    if |ids| == 1 then ShowIdent(ids[0]) else ShowIdent(ids[0]) + "." + JoinIdents(ids[1..])
  }

  /**
   * `Display for Version`: `MAJOR.MINOR.PATCH`, then `-` and the pre-release
   * identifiers. The text starts with a digit and holds a `-` exactly when
   * there is a pre-release; `ShowVersionReadBack` reads it back.
   */
  function ShowVersion(v: Version): (r: string)
    ensures |r| > 0 && IsDigit(r[0])
    ensures '-' in r <==> |v.pre| > 0
  {
    var core := NatToString(v.major) + "." + NatToString(v.minor) + "." + NatToString(v.patch);
    DigitsOnly(NatToString(v.major));
    DigitsOnly(NatToString(v.minor));
    DigitsOnly(NatToString(v.patch));
    assert '-' !in core;
    assert core[0] == NatToString(v.major)[0];
    if |v.pre| == 0 then core
    else
      var r := core + "-" + JoinIdents(v.pre);
      assert r[|core|] == '-';
      r
  }

  /** Digits contain neither of the separators `.` and `-`. */
  lemma DigitsOnly(s: string)
    requires AllDigits(s)
    ensures '.' !in s && '-' !in s
  {
  }

  /**
   * A displayable version displays as version characters only (no
   * whitespace, `=`, `/`), starts with a digit and ends with an identifier
   * character.
   */
  lemma ShowVersionChars(v: Version)
    requires Displayable(v)
    ensures var s := ShowVersion(v);
      && |s| > 0
      && (forall i :: 0 <= i < |s| ==> IsVersionChar(s[i]))
      && IsDigit(s[0])
      && IsIdentChar(s[|s| - 1])
  {
    var s := ShowVersion(v);
    var head := NatToString(v.major) + "." + NatToString(v.minor) + "." + NatToString(v.patch);
    if |v.pre| > 0 {
      var tail := JoinIdents(v.pre);
      assert s == head + "-" + tail;
      assert s[|s| - 1] == tail[|tail| - 1];
    }
    assert s[0] == NatToString(v.major)[0];
  }

  // ----- requirements and the library -----

  /** The error `Version::parse` reports. */
  datatype SemVerError = SemVerError(message: string)

  /** The error `VersionReq::parse` reports. */
  datatype ReqParseError = ReqParseError(message: string)

  /**
   * `semver::VersionReq`: `VersionReq::any()`, `VersionReq::exact(v)`, or a
   * parsed range requirement, represented by its canonical text.
   */
  datatype VersionReq = AnyReq | ExactReq(version: Version) | Range(text: string)

  /**
   * The semver crate's parsers and its range matching, which this model does
   * not re-implement.
   */
  datatype Library = Library(
    parseVersion: string -> Result<Version, SemVerError>,
    parseReq: string -> Result<VersionReq, ReqParseError>,
    rangeMatches: (string, Version) -> bool)

  /**
   * `VersionReq::matches`: `any` accepts every version, `exact(v)` accepts
   * exactly `v`, and a range asks the library.
   */
  function Matches(lib: Library, req: VersionReq, v: Version): (r: bool)
    ensures req.AnyReq? ==> r
    ensures req.ExactReq? ==> (r <==> v == req.version)
    ensures req.Range? ==> (r <==> lib.rangeMatches(req.text, v))
  {
    match req
    case AnyReq => true
    case ExactReq(e) => v == e
    case Range(text) => lib.rangeMatches(text, v)
  }

  /**
   * `Display for VersionReq`: `*` for `any`, and the operator `= ` (with a
   * space) before the version for `exact`; a range shows its stored text.
   */
  function ShowReq(req: VersionReq): (r: string)
    ensures req.AnyReq? ==> r == "*"
    ensures req.ExactReq? ==> |r| > 2 && r[..2] == "= " && r[2..] == ShowVersion(req.version)
    ensures req.Range? ==> r == req.text
  {
    match req
    case AnyReq => "*"
    case ExactReq(v) => "= " + ShowVersion(v)
    case Range(text) => text
  }

  /** The library parses what `Display` writes for `v` back to `v`. */
  predicate ParsesBack(lib: Library, v: Version) {
    lib.parseVersion(ShowVersion(v)) == Success(v)
  }

  /** Every version the library parses is parsed back from its own display. */
  ghost predicate ReparsesOwnDisplay(lib: Library) {
    forall s :: lib.parseVersion(s).Success? ==> ParsesBack(lib, lib.parseVersion(s).value)
  }

  /** Every version the library parses has displayable pre-release identifiers. */
  ghost predicate ParsesDisplayable(lib: Library) {
    forall s :: lib.parseVersion(s).Success? ==> Displayable(lib.parseVersion(s).value)
  }

  // ----- reading a displayed version back -----

  /** The identifier a piece of displayed pre-release text stands for. */
  function ReadIdent(s: string): Identifier {
    if |s| > 0 && AllDigits(s) then Numeric(DecimalValue(s)) else AlphaNumeric(s)
  }

  /** Dot-separated pre-release text read back into identifiers. */
  function ReadIdents(s: string): (r: seq<Identifier>)
    ensures |r| > 0
    decreases |s|
  {
    match Text.SplitFirst(s, '.')
    case None => [ReadIdent(s)]
    case Some((head, rest)) => [ReadIdent(head)] + ReadIdents(rest)
  }

  /** A field of decimal digits read back into a number. */
  function ReadNumber(s: string): Option<nat> {
    if AllDigits(s) then Some(DecimalValue(s)) else None
  }

  /** What follows the minor field: the patch text, then `-` and the pre-release if there is one. */
  function ReadPatchAndPre(s: string): (string, seq<Identifier>) {
    match Text.SplitFirst(s, '-')
    case None => (s, [])
    case Some((patch, pre)) => (patch, ReadIdents(pre))
  }

  /**
   * `MAJOR.MINOR.PATCH[-PRE]` read back: `None` when a `.` is missing or a
   * numeric field holds something other than digits. This is a reference
   * reading of `ShowVersion`, not the crate's parser.
   */
  function ReadVersion(s: string): Option<Version> {
    match Text.SplitFirst(s, '.')
    case None => None
    case Some((major, r1)) =>
      match Text.SplitFirst(r1, '.')
      case None => None
      case Some((minor, r2)) =>
        var (patch, pre) := ReadPatchAndPre(r2);
        match (ReadNumber(major), ReadNumber(minor), ReadNumber(patch))
        case (Some(x), Some(y), Some(z)) => Some(Version(x, y, z, pre))
        case _ => None
  }

  /** A well-formed identifier displays without `.` and reads back to itself. */
  lemma ReadIdentOfShow(id: Identifier)
    requires WellFormedIdent(id)
    ensures '.' !in ShowIdent(id)
    ensures ReadIdent(ShowIdent(id)) == id
  {
    match id
    case Numeric(n) => DecimalRoundTrip(n);
    case AlphaNumeric(s) =>
  }

  /** One step of reading back joined identifiers: the first one, then the rest. */
  lemma ReadIdentsStep(ids: seq<Identifier>)
    requires |ids| > 1
    requires '.' !in ShowIdent(ids[0]) && ReadIdent(ShowIdent(ids[0])) == ids[0]
    requires ReadIdents(JoinIdents(ids[1..])) == ids[1..]
    ensures ReadIdents(JoinIdents(ids)) == ids
  {
    var head, rest := ShowIdent(ids[0]), JoinIdents(ids[1..]);
    assert JoinIdents(ids) == head + ['.'] + rest;
    Text.SplitFirstOfJoin(head, '.', rest);
    assert [ids[0]] + ids[1..] == ids;
  }

  /** Dot-joined well-formed identifiers read back to themselves. */
  lemma {:induction false} ReadIdentsOfJoin(ids: seq<Identifier>)
    requires |ids| > 0
    requires forall i :: 0 <= i < |ids| ==> WellFormedIdent(ids[i])
    ensures ReadIdents(JoinIdents(ids)) == ids
  {
    ReadIdentOfShow(ids[0]);
    if |ids| == 1 {
      assert Text.SplitFirst(ShowIdent(ids[0]), '.') == None;
    } else {
      ReadIdentsOfJoin(ids[1..]);
      ReadIdentsStep(ids);
    }
  }

  /** The pre-release part of a display, after the patch digits. */
  function ShowPre(pre: seq<Identifier>): string {
    if |pre| == 0 then "" else "-" + JoinIdents(pre)
  }

  lemma ShowVersionFields(v: Version)
    ensures ShowVersion(v)
      == NatToString(v.major) + "." + (NatToString(v.minor) + "." + (NatToString(v.patch) + ShowPre(v.pre)))
  {
  }

  /** The patch digits and the pre-release are read back from what follows the minor field. */
  lemma ReadPatchAndPreOfShow(patch: string, pre: seq<Identifier>)
    requires AllDigits(patch)
    requires forall i :: 0 <= i < |pre| ==> WellFormedIdent(pre[i])
    ensures ReadPatchAndPre(patch + ShowPre(pre)) == (patch, pre)
  {
    DigitsOnly(patch);
    if |pre| == 0 {
      assert patch + ShowPre(pre) == patch;
    } else {
      assert patch + ShowPre(pre) == patch + ['-'] + JoinIdents(pre);
      Text.SplitFirstOfJoin(patch, '-', JoinIdents(pre));
      ReadIdentsOfJoin(pre);
    }
  }

  /** Every well-formed version is read back from its display. */
  lemma ShowVersionReadBack(v: Version)
    requires WellFormed(v)
    ensures ReadVersion(ShowVersion(v)) == Some(v)
  {
    var major, minor, patch := NatToString(v.major), NatToString(v.minor), NatToString(v.patch);
    DigitsOnly(major);
    DigitsOnly(minor);
    DecimalRoundTrip(v.major);
    DecimalRoundTrip(v.minor);
    DecimalRoundTrip(v.patch);
    var r2 := patch + ShowPre(v.pre);
    var r1 := minor + "." + r2;
    ShowVersionFields(v);
    Text.SplitFirstOfJoin(major, '.', r1);
    Text.SplitFirstOfJoin(minor, '.', r2);
    ReadPatchAndPreOfShow(patch, v.pre);
  }

  /** Distinct well-formed versions display differently. */
  lemma ShowVersionInjective(v: Version, w: Version)
    requires WellFormed(v) && WellFormed(w)
    requires ShowVersion(v) == ShowVersion(w)
    ensures v == w
  {
    ShowVersionReadBack(v);
    ShowVersionReadBack(w);
  }
}

=== FILE: text.dfy ===
/**
 * The string operations the crate-specification parser relies on:
 * Rust's `str::trim` and `str::splitn(2, sep)`.
 */
module Text {
  import opened Wrappers

  /** Rust's `char::is_whitespace`: the Unicode `White_Space` property. */
  predicate IsWhitespace(c: char) {
    || ('\U{9}' <= c <= '\U{D}')
    || c == ' '
    || c == '\U{85}'
    || c == '\U{A0}'
    || c == '\U{1680}'
    || ('\U{2000}' <= c <= '\U{200A}')
    || c == '\U{2028}'
    || c == '\U{2029}'
    || c == '\U{202F}'
    || c == '\U{205F}'
    || c == '\U{3000}'
  }

  /** Neither end of `s` is whitespace: `trim` leaves it unchanged. */
  predicate Trimmed(s: string) {
    |s| == 0 || (!IsWhitespace(s[0]) && !IsWhitespace(s[|s| - 1]))
  }

  /** `r` is what remains of `s` after whitespace is cut off its front. */
  ghost predicate DropsFront(s: string, r: string) {
    && |r| <= |s| && r == s[|s| - |r|..]
    && forall i :: 0 <= i < |s| - |r| ==> IsWhitespace(s[i])
  }

  /** `r` is what remains of `s` after whitespace is cut off its back. */
  ghost predicate DropsBack(s: string, r: string) {
    && |r| <= |s| && r == s[..|r|]
    && forall i :: |r| <= i < |s| ==> IsWhitespace(s[i])
  }

  /** `str::trim_start`: drops the leading whitespace. */
  function TrimStart(s: string): (r: string)
    ensures DropsFront(s, r)
    ensures |r| > 0 ==> !IsWhitespace(r[0])
  {
    if |s| > 0 && IsWhitespace(s[0]) then TrimStart(s[1..]) else s
  }

  /** `str::trim_end`: drops the trailing whitespace. */
  function TrimEnd(s: string): (r: string)
    ensures DropsBack(s, r)
    ensures |r| > 0 ==> !IsWhitespace(r[|r| - 1])
  {
    if |s| > 0 && IsWhitespace(s[|s| - 1]) then TrimEnd(s[..|s| - 1]) else s
  }

  /** `r` is `s[i..i + |r|]` and everything of `s` outside that slice is whitespace. */
  ghost predicate CutAt(s: string, r: string, i: int) {
    && 0 <= i <= |s| - |r|
    && r == s[i..i + |r|]
    && (forall k :: 0 <= k < i ==> IsWhitespace(s[k]))
    && (forall k :: i + |r| <= k < |s| ==> IsWhitespace(s[k]))
  }

  /**
   * `str::trim`: drops whitespace at both ends. The result has no
   * whitespace at either end, and a string already trimmed is returned
   * unchanged; `TrimIsSlice` says what is cut off.
   */
  function Trim(s: string): (r: string)
    ensures Trimmed(r)
    ensures Trimmed(s) ==> r == s
  {
    TrimEnd(TrimStart(s))
  }

  /**
   * Whitespace cut off the front of `s` giving `t`, then off the back of
   * `t` giving `r`, leaves `r` as a slice of `s` with whitespace around it.
   */
  lemma CutTwice(s: string, t: string, r: string)
    requires DropsFront(s, t) && DropsBack(t, r)
    ensures CutAt(s, r, |s| - |t|)
  {
    var i := |s| - |t|;
    SliceOfSuffix(s, i, t, r);
    TailCarries(IsWhitespace, s, i, t, |r|);
  }

  /** A property of every element of `t == s[i..]` from position `n` on holds of `s` from `i + n` on. */
  lemma TailCarries<T>(p: T -> bool, s: seq<T>, i: nat, t: seq<T>, n: nat)
    requires i <= |s| && t == s[i..]
    requires forall k :: n <= k < |t| ==> p(t[k])
    ensures forall k :: i + n <= k < |s| ==> p(s[k])
  {
    forall k | i + n <= k < |s| ensures p(s[k]) {
      assert s[k] == t[k - i];
    }
  }

  /** A prefix `r` of the suffix `t == s[i..]` is the slice `s[i..i + |r|]`. */
  lemma SliceOfSuffix<T>(s: seq<T>, i: nat, t: seq<T>, r: seq<T>)
    requires i <= |s| && t == s[i..]
    requires |r| <= |t| && r == t[..|r|]
    ensures r == s[i..i + |r|]
    ensures forall k :: 0 <= k < |t| ==> t[k] == s[i + k]
  {
  }

  /**
   * The result of `trim` is a slice of its input, everything cut off is
   * whitespace, and so every character of the result is one of the input.
   */
  lemma TrimIsSlice(s: string)
    ensures exists i :: CutAt(s, Trim(s), i)
    ensures forall c :: c in Trim(s) ==> c in s
  {
    var t := TrimStart(s);
    var r := TrimEnd(t);
    assert Trim(s) == r;
    CutTwice(s, t, r);
    SliceChars(s, r, |s| - |t|);
  }

  /** Every element of a slice is an element of the whole. */
  lemma SliceChars<T>(s: seq<T>, r: seq<T>, i: nat)
    requires i <= |s| - |r| && r == s[i..i + |r|]
    ensures forall c :: c in r ==> c in s
  {
    forall c | c in r ensures c in s {
      var k :| 0 <= k < |r| && r[k] == c;
      assert s[i + k] == c;
    }
  }

  /**
   * `s.splitn(2, sep)` seen as a pair: `None` when `sep` does not occur,
   * otherwise the text before the FIRST `sep` and everything after it.
   */
  function SplitFirst(s: string, sep: char): (r: Option<(string, string)>)
    ensures r.None? <==> sep !in s
    ensures r.Some? ==> s == r.value.0 + [sep] + r.value.1 && sep !in r.value.0
  {
    if |s| == 0 then None
    else if s[0] == sep then Some(([], s[1..]))
    else match SplitFirst(s[1..], sep)
      case None => None
      case Some((before, after)) => Some(([s[0]] + before, after))
  }

  /** A string splits around its first separator in only one way. */
  lemma {:induction false} SeparatorUnique(a: string, b: string, c: string, d: string, sep: char)
    requires sep !in a && sep !in c
    requires a + [sep] + b == c + [sep] + d
    ensures a == c && b == d
  {
    var s := a + [sep] + b;
    assert s[|a|] == sep && s[|c|] == sep;
    assert forall i :: 0 <= i < |a| ==> s[i] == a[i] != sep;
    assert forall i :: 0 <= i < |c| ==> s[i] == c[i] != sep;
    assert |a| == |c|;
    assert a == s[..|a|] == c;
    assert b == s[|a| + 1..] == d;
  }

  /** Splitting `a + sep + b` at the first `sep` gives back `a` and `b` when `a` has no `sep`. */
  lemma SplitFirstOfJoin(a: string, sep: char, b: string)
    requires sep !in a
    ensures SplitFirst(a + [sep] + b, sep) == Some((a, b))
  {
    var s := a + [sep] + b;
    assert s[|a|] == sep;
    var r := SplitFirst(s, sep);
    SeparatorUnique(r.value.0, r.value.1, a, b, sep);
  }

  /** Strings that agree on a common prefix and suffix agree in the middle. */
  lemma SameAffixes(p: string, a: string, b: string, q: string)
    requires p + a + q == p + b + q
    ensures a == b
  {
    var s := p + a + q;
    assert |a| == |b|;
    assert a == s[|p|..|p| + |a|];
    assert b == (p + b + q)[|p|..|p| + |b|];
  }
}

=== FILE: wrappers.dfy ===
/** Failure-carrying values: the model's counterparts of Rust's `Option` and `Result`. */
module Wrappers {

  /** `Option<T>`: either nothing or one value. */
  datatype Option<+T> = None | Some(value: T)

  /** `Result<T, E>`: either a value or an error. */
  datatype Result<+T, +E> = Success(value: T) | Failure(error: E)
}
